=== FILE: README.md ===
# Baemin food-service portal monitor — a Dafny model

The monitor opens the Baemin food-service portal (`https://ceo.baemin.com`) in a
browser once per run. It decides whether the page was served or replaced by a
bot-block notice. On a served page it:

- collects up to 20 "slots" (banners, cards, menu items, links, images, sections) per CSS selector group;
- sends one HEAD request to each distinct checkable URL (not `javascript:`, `#` or `mailto:`) among the first 30 anchors;
- records everything in a result record.

The run ends with a status (`success`, `blocked`, `failed` or `error`). It may append
one row to a Google spreadsheet, and it exits with code 0 exactly when the status is
`success`.

This project models that decision logic in Dafny and proves its properties. The
browser, the network and the clock are inputs: the page source, the element records a
selector returns, the HEAD outcome of each URL, and the formatted start time.

Modules, one file each:

- `Common` (common.dfy): `Option`, `Read` (a browser read that may fail), `Min`.
- `Text` (text.dfy): the Python string operations the monitor relies on. These are
  ASCII lower-casing, `str.strip()`, slicing, `in`, `find`, `join`/`split` and the
  `S%02d` slot labels.
- `PageLoad` (pageload.dfy): access classification, the load outcome, scroll offsets.
- `Slots` (slots.dfy): slot extraction, with one counter carried across all groups.
- `Links` (links.dfy): link filtering, de-duplication and broken-link records.
- `Results` (results.dfy): the result record and its status names.
- `Sheets` (sheetrow.dfy): the spreadsheet row and the save decision.
- `Monitor` (monitor.dfy): the run state machine and the exit code.

## Model

| member | source | states |
|---|---|---|
| Text.Lower | main.py:210 | lower-casing keeps the length, leaves no ASCII capital, shifts each ASCII capital by 32 and leaves every other character alone |
| Text.Strip | main.py:273 | the stripped text is no longer than the input and neither starts nor ends with a Python whitespace character |
| Text.StripTrims | main.py:273 | stripping removes only whitespace, and only from the two ends: the result is a slice `s[i..j]` with whitespace outside it |
| Text.StripUnique | main.py:273 | any slice that trims only whitespace from both ends and leaves neither end whitespace is exactly `Strip(s)`, so the result is fully characterised |
| Text.Take | main.py:281 | `s[:n]` has length `min(|s|, n)` and is a prefix of `s` |
| Text.Contains | main.py:217-219 | `pat in text` holds exactly when `pat` occurs at some position of `text` |
| Text.Join | main.py:435-436 | `sep.join` of nothing is empty, and otherwise has the total length of the parts plus one separator between each pair, starting with the first part |
| Text.Find | main.py:435-436 | the position found is an occurrence with no earlier one, and none is found exactly when the pattern does not occur |
| Text.Split | main.py:435-436 | `s.split(sep)` yields at least one part |
| Text.SplitJoin | main.py:435-436 | splitting a join on the separator gives the parts back when no part lets a separator start early (the inverse of `join`) |
| Text.CommaSpaceFree | main.py:435-436 | for the separator ", " it is enough that no part contains ", " |
| Text.Decimal | main.py:279 | the numeral is a non-empty digit string with no leading zero: one digit exactly for numbers below 10, two exactly for 10 to 99 |
| Text.DecimalRoundTrip | main.py:279 | reading the numeral back gives the number |
| Text.IndexLabel | main.py:279 | a slot label is `S` followed by digits: exactly two for numbers below 100 (zero-padded), and otherwise the numeral without a leading zero |
| Text.LabelRoundTrip | main.py:279 | reading the number back out of a label gives the number it was made from |
| Text.LabelInjective | main.py:279 | two slot numbers share a label exactly when they are equal |
| PageLoad.Classify | main.py:210-224 | the access status is `blocked` exactly when some blocking keyword occurs in the lower-cased source and "외식업" does not, and `success` otherwise |
| PageLoad.ClassifyIgnoresCase | main.py:210 | the classification does not depend on ASCII letter case |
| PageLoad.MarkerMeansSuccess | main.py:219-224 | a source containing "외식업" is never classified as blocked |
| PageLoad.BlockNoticeIsBlocked | main.py:216-221 | a source mentioning "차단" without "외식업" is classified as blocked |
| PageLoad.LoadPage | main.py:190-241 | the page counts as loaded exactly when the navigation produced a source, which is then classified with no error. A timeout gives `timeout` and "Page load timeout". Any other fault gives `error` and "Page load error: " plus its message |
| PageLoad.AccessName | main.py:168-240 | each of the five access-status names reads back as its status, so distinct statuses are stored under distinct names |
| PageLoad.StepRange | main.py:250 | `range(start, stop, 500)` lists `start + 500k` below `stop`, and the next step would reach `stop` |
| PageLoad.ScrollOffsets | main.py:250 | the offsets are 0, 500, 1000, … Each is below the height, every such multiple below both the height and 5000 is included, and there are at most 10 |
| PageLoad.ScrollPositions | main.py:250-254 | the page is scrolled through the offsets and then back to 0 |
| Slots.Kept | main.py:271-276 | every kept element has a stripped text of at least 2 characters, and there are no more kept elements than matches |
| Slots.KeptSelects | main.py:271-276 | the kept elements are exactly the matches that could be read and whose stripped text has at least 2 characters, in match order. The j-th kept element is read at position `idx[j]`, the positions increase, and every qualifying position is among them |
| Slots.KeptComplete | main.py:271-276 | no qualifying match is dropped: its element is among the kept ones |
| Slots.MakeSlot | main.py:278-291 | a slot carries its number and type, the stripped text cut to 100 characters, the tag and visibility. `href` is present exactly for `a`, and `src`/`alt` exactly for `img`. Missing attributes become "" |
| Slots.ScanGroup | main.py:271-294 | the loop over one group's matches numbers the kept elements consecutively from the current counter, and a skipped element does not advance it |
| Slots.GroupCandidates | main.py:267-271 | a group contributes at most 20 candidates, all of its own type and all with a stripped text of at least 2 characters; a failed selector contributes none |
| Slots.GroupCandidatesComplete | main.py:267-276 | every qualifying match among a group's first 20 is one of its candidates, tagged with the group's type |
| Slots.GroupSlots | main.py:267-300 | one group's slots are its candidates numbered from the current counter |
| Slots.ExtractFrom | main.py:264-300 | carrying the counter from group to group, never resetting it, numbers the candidates of all groups consecutively |
| Slots.ExtractSlots | main.py:260-304 | the k-th slot (from 0) is number k + 1 (label S01, S02, …), built from the k-th candidate in group order. Its text is at most 100 characters and comes from a stripped text of at least 2. `href` is present exactly for `a`, and `src`/`alt` exactly for `img` |
| Slots.Candidates | main.py:267-276 | every candidate, over all groups, has a stripped text of at least 2 characters |
| Slots.CandidatesFromGroups | main.py:264-276 | a candidate appears among all candidates exactly when it is a candidate of some group |
| Slots.CandidatesBound | main.py:267-271 | there are at most 20 candidates per selector group |
| Slots.SlotsPerTypeBounded | main.py:267-271 | with distinct slot types, at most 20 slots of any one type are extracted |
| Slots.ConfiguredGroups | main.py:44-51 | the six configured slot types are queried in their configured order, each with its selector, and the types are pairwise different |
| Links.Examined | main.py:315 | exactly the first min(30, number of anchors) anchors are looked at |
| Links.FirstAnchor | main.py:318-341 | the anchor found is the first whose `href` reads as the URL, and none is found exactly when no anchor has it |
| Links.DistinctUrlsCounted | main.py:337-353 | broken links with pairwise distinct URLs are as many as their URLs |
| Links.VisitScanned | main.py:315-349 | one loop step preserves the scan invariant. The checked set is the checkable URLs seen so far, and the broken links are the records of the reported URLs, once each |
| Links.RecordScanned | main.py:325-343 | a new checkable URL answered with status 400 or more, from an anchor whose text can be read, is checked and recorded with that status and its text cut to 50 |
| Links.CheckScanned | main.py:325-346 | a new checkable URL whose request fails or succeeds is checked but not recorded |
| Links.SkipScanned | main.py:318-323 | an empty, unreadable, already checked or `javascript:`/`#`/`mailto:` URL changes nothing |
| Links.CheckLinks | main.py:310-353 | the checked URLs are the checkable URLs of the first 30 anchors, at most 30. Each broken link has a checked URL, the status its request answered (at least 400) and text of at most 50 characters. URLs are distinct, every reported URL is among them, and there are no more broken links than checked URLs |
| Links.CheckPageLinks | main.py:306-359 | a failing anchor query adds "Link check error: " plus its message and leaves the counters at 0; otherwise the result is that of `CheckLinks` |
| Results.StatusName | main.py:167-404 | each run-status name reads back as its status, so distinct statuses are stored under distinct names |
| Results.NewResult | main.py:158-175 | a new result is pending with access unknown, empty collections and zero counters, and carries the start time and target URL |
| Sheets.SlotCells | main.py:439-443 | each slot contributes two consecutive cells, its type and its text cut to 50 characters |
| Sheets.SummaryCells | main.py:426-437 | there are exactly ten summary cells. The first eight read back, in column order, as the date, the time, the title ("" when none was read), the status name, the access-status name and, for a consistent result, the slot, link and broken-link counts |
| Sheets.SlotPair | main.py:439-443 | a slot's cells are its type, then its text cut to its first min(length, 50) characters |
| Sheets.SheetRow | main.py:426-443 | the row has 10 summary cells followed by 2 cells for each of the first min(10, number of slots) slots |
| Sheets.BrokenUrlCellReadsBack | main.py:435 | the broken-URL cell is empty when there are no broken links, and otherwise splits back into the URLs of the first 5 broken links |
| Sheets.ErrorCellReadsBack | main.py:436 | the error cell is empty without errors, and otherwise splits back into the first 3 errors |
| Sheets.SaveToSheets | main.py:416-451 | the row is built, in full, exactly when a spreadsheet id is configured and the client could be created (authentication comes first). The save is reported successful exactly when, in addition, no exception escapes the append |
| Monitor.GetPageInfo | main.py:375-381 | the title and current URL are recorded as far as they could be read, and nothing else changes |
| Monitor.Run | main.py:383-410 | `RunOutcome` holds: the timestamp, date and time are the clock's and the URL is the configured one. The final status follows the browser's answers. Start or screenshot-directory failure gives `error`; a failed load `failed`; a blocked page `blocked`; otherwise `success`. Counters match their collections. The title and current URL are those read from a loaded page, as far as they could be read. Slots and links are gathered only on success. The errors are those of loading, link checking and the uncaught exception, in order |
| Monitor.ExitCode | main.py:505 | the exit code is 0 exactly for `success`, and 1 otherwise |
| Monitor.Inspect | main.py:392-395 | on an accessible page the record gains exactly the extracted slots, the link count and broken links of the first 30 anchors (or the link error when the anchor query fails) and the status `success`; nothing else changes |
| Monitor.MonitorOnce | main.py:483-505 | the returned record satisfies everything `Run` promises about it, including the clock's timestamp, so the saved row is the row of that run. The row exists when a spreadsheet is configured and its client can be created. The exit code depends on the run status only |

## Left out

- Browser construction, stealth options, script injection and driver timeouts. Navigation, waiting and element queries are inputs (`LoadOutcome`, `GroupQuery`, `LinkQuery`, `PageInfo`).
- The settle delays and the scrolling side effects themselves. Only the scroll offsets are modelled.
- The HEAD requests. Each URL's outcome is an input: a status code, or a request failure that is ignored.
- Screenshots (file name, `screenshot` field), logging, the printed summary, the JSON results file and the time formatting. The formatted start time is an input (`Clock`). A failure to write the JSON file would end the process before the exit code is returned; that is not modelled.
- `sheets_manager.py`, the Google Sheets client. Its behaviour is an input (`SheetsClient`): authentication fails, or it connects and the append does or does not raise. Whether its header row lines up with the data row is not stated.
- Sheets.SaveToSheets: HTTP errors are caught inside the client and never reach `save_to_sheets`, which ignores the client's answer, so the row is reported as saved whether or not it was appended. An error while looking up or creating the sheet or writing its headers (sheets_manager.py:95-97, 130-131) is ignored by `append_row` (sheets_manager.py:141), which still sends the append, and that may succeed. An error on the append itself (sheets_manager.py:159-161) means the row was not appended. The model reports all of these the same way: the client counts as `Connected(false)`.
- Python's `str.lower` on non-ASCII characters: `Text.Lower` changes only ASCII letters. Korean text has no case, and the only character whose lower-casing can change the classification is U+212A KELVIN SIGN, which becomes `k`. A source containing "BLOC\u212AED" (with no "외식업") is therefore `blocked` in the monitor but `success` in the model.
- Text.Strip: the whitespace set is Python's `str.isspace` set written out; no Unicode database is consulted.
- Slots.MakeSlot: the slot index is stored as its number. Its text form `S01`, `S02`, … is `Text.IndexLabel` of that number.
- Links.CheckLinks: the order of the broken links is the order in which their URLs were first checked. The contract states which records appear and that each appears once, not their order.
- Sheets.BrokenUrlCellReadsBack: requires URLs free of ", ". A URL containing ", " cannot be recovered from the cell.
- Sheets.ErrorCellReadsBack: requires error messages free of ", "; a message containing it cannot be recovered from the cell.
- Monitor.Run: exceptions other than a failing browser start and a failing screenshot directory are not modelled. Those two are the only ones that escape the handlers.

=== FILE: common.dfy ===
/** Small failure-carrying datatypes shared by the monitor's modules. */
module Common {

  /** A value that may be absent, such as an HTML attribute the element does not carry. */
  datatype Option<+T> = None | Some(value: T)

  /** The outcome of reading something from the live browser: either the value,
      or a fault raised by the driver (a stale element, a lost session, ...). */
  datatype Read<+T> = Ok(value: T) | Fault

  function Min(a: nat, b: nat): nat
  {
    if a <= b then a else b
  }
}

=== FILE: links.dfy ===
/** Link checking (main.py, `BaeminMonitor.check_links`): the first 30 anchors are
    examined in order; every new, non-empty URL that is not a `javascript:`,
    fragment or `mailto:` link is requested once, and a response status of 400 or
    more is recorded as a broken link. The HEAD requests are not performed here:
    their outcomes are an input, one per URL. */
module Links {
  import opened Common
  import opened Text

  const LinkCap: nat := 30
  const LinkTextCap: nat := 50

  /** One anchor as the browser reports it: reading its `href` attribute and
      reading its text can each raise (a stale element). */
  datatype Anchor = Anchor(href: Read<Option<string>>, text: Read<string>)

  /** The outcome of the HEAD request for a URL: a status code, or a request-level
      failure (timeout, connection or DNS error), which the link check ignores. */
  datatype HeadOutcome = Responded(statusCode: int) | RequestFailed

  datatype BrokenLink = BrokenLink(url: string, statusCode: int, text: string)

  /** The outcome of asking the page for its `a[href]` anchors. */
  datatype LinkQuery = Anchors(anchors: seq<Anchor>) | LinkQueryFailed(message: string)

  /** A URL the link check requests: non-empty and not a script, fragment or mail link. */
  predicate Checkable(url: string)
  {
    && |url| > 0
    && !StartsWith(url, "javascript:")
    && !StartsWith(url, "#")
    && !StartsWith(url, "mailto:")
  }

  predicate HasHref(a: Anchor, url: string)
  {
    a.href == Ok(Some(url))
  }

  predicate IsErrorStatus(h: HeadOutcome)
  {
    h.Responded? && h.statusCode >= 400
  }

  /** The anchors the link check looks at: Python's `links[:30]`. */
  function Examined(anchors: seq<Anchor>): (s: seq<Anchor>)
    ensures |s| == Min(LinkCap, |anchors|) && s == anchors[..|s|]
  {
    anchors[..Min(LinkCap, |anchors|)]
  }

  /** Every checkable URL read from some anchor of `s`. */
  function CheckableUrls(s: seq<Anchor>): set<string>
  {
    set i | 0 <= i < |s| && s[i].href.Ok? && s[i].href.value.Some? && Checkable(s[i].href.value.value)
      :: s[i].href.value.value
  }

  /** No anchor before position `j` of `s` has `href` `url`. */
  ghost predicate NoneBefore(s: seq<Anchor>, j: int, url: string)
    requires j <= |s|
  {
    forall i :: 0 <= i < j ==> !HasHref(s[i], url)
  }

  /** The first anchor of `s` whose `href` reads as `url`, if any. */
  function FirstAnchor(s: seq<Anchor>, url: string): (r: Option<Anchor>)
    ensures r.Some? <==> exists j :: 0 <= j < |s| && HasHref(s[j], url)
    ensures r.Some? ==> HasHref(r.value, url)
    ensures forall j :: 0 <= j < |s| && HasHref(s[j], url) && NoneBefore(s, j, url) ==> r == Some(s[j])
  {
    if |s| == 0 then None
    else if HasHref(s[0], url) then Some(s[0])
    else
      var r := FirstAnchor(s[1..], url);
      assert forall j :: 1 <= j < |s| ==> s[j] == s[1..][j - 1];
      assert forall j :: 0 <= j < |s| && HasHref(s[j], url) && NoneBefore(s, j, url) ==> r == Some(s[j]) by {
        forall j | 0 <= j < |s| && HasHref(s[j], url) && NoneBefore(s, j, url) ensures r == Some(s[j]) {
          assert NoneBefore(s[1..], j - 1, url);
        }
      }
      r
  }

  /** `url` is recorded as broken: it is checked, its request answered with an error
      status, and the text of the anchor it was first read from could be read. */
  predicate Reported(s: seq<Anchor>, head: string -> HeadOutcome, url: string)
  {
    && url in CheckableUrls(s)
    && IsErrorStatus(head(url))
    && FirstAnchor(s, url).Some?
    && FirstAnchor(s, url).value.text.Ok?
  }

  /** The record kept for a reported URL; the link text is cut to 50 characters. */
  function Record(s: seq<Anchor>, head: string -> HeadOutcome, url: string): BrokenLink
    requires Reported(s, head, url)
  {
    BrokenLink(url, head(url).statusCode, Take(FirstAnchor(s, url).value.text.value, LinkTextCap))
  }

  function BrokenUrls(broken: seq<BrokenLink>): set<string>
  {
    set k | 0 <= k < |broken| :: broken[k].url
  }

  lemma {:induction false} SubsetNoLarger(a: set<string>, b: set<string>)
    requires a <= b
    ensures |a| <= |b|
  {
    if a != {} {
      var x :| x in a;
      SubsetNoLarger(a - {x}, b - {x});
    }
  }

  /** Broken links with pairwise distinct URLs are as many as their URLs. */
  lemma {:induction false} DistinctUrlsCounted(broken: seq<BrokenLink>)
    requires forall j, k :: 0 <= j < k < |broken| ==> broken[j].url != broken[k].url
    ensures |BrokenUrls(broken)| == |broken|
  {
    if |broken| > 0 {
      var n := |broken| - 1;
      var front := broken[..n];
      assert forall j, k :: 0 <= j < k < |front| ==> front[j].url != front[k].url;
      DistinctUrlsCounted(front);
      assert BrokenUrls(broken) == BrokenUrls(front) + {broken[n].url} by {
        assert forall k :: 0 <= k < n ==> front[k] == broken[k];
      }
      assert broken[n].url !in BrokenUrls(front);
    } else {
      assert BrokenUrls(broken) == {};
    }
  }

  lemma {:induction false} FirstAnchorAppend(s: seq<Anchor>, a: Anchor, url: string)
    ensures FirstAnchor(s + [a], url) ==
      if FirstAnchor(s, url).Some? then FirstAnchor(s, url)
      else if HasHref(a, url) then Some(a)
      else None
  {
    if |s| > 0 {
      assert (s + [a])[1..] == s[1..] + [a];
      FirstAnchorAppend(s[1..], a, url);
    }
  }

  lemma UrlsAppend(s: seq<Anchor>, a: Anchor)
    ensures CheckableUrls(s + [a]) == CheckableUrls(s) +
      if a.href.Ok? && a.href.value.Some? && Checkable(a.href.value.value) then {a.href.value.value} else {}
  {
    var t := s + [a];
    assert forall i :: 0 <= i < |s| ==> t[i] == s[i];
    assert t[|s|] == a;
  }

  /** What has been established after examining the anchors `s`: the checked set
      is exactly their checkable URLs, and the broken links are exactly the records
      of the reported URLs, each once. */
  ghost predicate Scanned(s: seq<Anchor>, head: string -> HeadOutcome, checked: set<string>, broken: seq<BrokenLink>)
  {
    checked == CheckableUrls(s) && BrokenLinksOf(s, head, broken)
  }

  /** `broken` holds the record of every URL of `s` that is reported, once each. */
  ghost predicate BrokenLinksOf(s: seq<Anchor>, head: string -> HeadOutcome, broken: seq<BrokenLink>)
  {
    && (forall k :: 0 <= k < |broken| ==>
         Reported(s, head, broken[k].url) && broken[k] == Record(s, head, broken[k].url))
    && (forall j, k :: 0 <= j < k < |broken| ==> broken[j].url != broken[k].url)
    && (forall url :: Reported(s, head, url) ==> url in BrokenUrls(broken))
  }

  /** One iteration of the loop over the anchors. */
  function Visit(a: Anchor, head: string -> HeadOutcome, checked: set<string>, broken: seq<BrokenLink>)
    : (set<string>, seq<BrokenLink>)
  {
    if a.href.Fault? || a.href.value.None? then (checked, broken)
    else
      var url := a.href.value.value;
      if url == "" || url in checked then (checked, broken)
      else if !Checkable(url) then (checked, broken)
      else if IsErrorStatus(head(url)) && a.text.Ok? then
        (checked + {url}, broken + [BrokenLink(url, head(url).statusCode, Take(a.text.value, LinkTextCap))])
      else (checked + {url}, broken)
  }

  /** Appending an anchor changes nothing about a URL that was already checked. */
  lemma KnownUrlUnchanged(s: seq<Anchor>, a: Anchor, head: string -> HeadOutcome, url: string)
    requires url in CheckableUrls(s)
    ensures FirstAnchor(s + [a], url) == FirstAnchor(s, url)
    ensures Reported(s + [a], head, url) == Reported(s, head, url)
    ensures Reported(s, head, url) ==> Record(s + [a], head, url) == Record(s, head, url)
  {
    UrlsAppend(s, a);
    FirstAnchorAppend(s, a, url);
    var i :| 0 <= i < |s| && s[i].href.Ok? && s[i].href.value.Some? && Checkable(s[i].href.value.value)
      && s[i].href.value.value == url;
    assert HasHref(s[i], url);
  }

  /** Appending an anchor changes neither whether nor how an already checked URL is reported. */
  lemma OthersUnchanged(s: seq<Anchor>, a: Anchor, head: string -> HeadOutcome)
    ensures forall url :: url in CheckableUrls(s) ==> Reported(s + [a], head, url) == Reported(s, head, url)
    ensures forall url :: url in CheckableUrls(s) && Reported(s, head, url) ==>
      Record(s + [a], head, url) == Record(s, head, url)
  {
    forall url | url in CheckableUrls(s)
      ensures Reported(s + [a], head, url) == Reported(s, head, url)
      ensures Reported(s, head, url) ==> Record(s + [a], head, url) == Record(s, head, url)
    {
      KnownUrlUnchanged(s, a, head, url);
    }
  }

  /** An anchor carrying a URL not checked before is that URL's first anchor. */
  lemma NewUrlFirst(s: seq<Anchor>, a: Anchor, url: string)
    requires HasHref(a, url) && Checkable(url) && url !in CheckableUrls(s)
    ensures FirstAnchor(s + [a], url) == Some(a)
  {
    FirstAnchorAppend(s, a, url);
  }

  /** An anchor whose URL is unreadable, absent, already checked or excluded
      leaves the scan as it was. */
  lemma SkipScanned(s: seq<Anchor>, a: Anchor, head: string -> HeadOutcome, checked: set<string>, broken: seq<BrokenLink>)
    requires Scanned(s, head, checked, broken)
    requires !(a.href.Ok? && a.href.value.Some? && Checkable(a.href.value.value) && a.href.value.value !in checked)
    ensures Scanned(s + [a], head, checked, broken)
  {
    var t := s + [a];
    UrlsAppend(s, a);
    assert CheckableUrls(t) == CheckableUrls(s);
    OthersUnchanged(s, a, head);
  }

  /** A newly checked URL that is not reported joins the checked set only. */
  lemma CheckScanned(s: seq<Anchor>, a: Anchor, head: string -> HeadOutcome, checked: set<string>, broken: seq<BrokenLink>, url: string)
    requires Scanned(s, head, checked, broken)
    requires HasHref(a, url) && Checkable(url) && url !in checked
    requires !(IsErrorStatus(head(url)) && a.text.Ok?)
    ensures Scanned(s + [a], head, checked + {url}, broken)
  {
    var t := s + [a];
    UrlsAppend(s, a);
    NewUrlFirst(s, a, url);
    assert !Reported(t, head, url);
    OthersUnchanged(s, a, head);
  }

  /** A newly checked URL that is reported is appended to the broken links. */
  lemma RecordScanned(s: seq<Anchor>, a: Anchor, head: string -> HeadOutcome, checked: set<string>, broken: seq<BrokenLink>, url: string)
    requires Scanned(s, head, checked, broken)
    requires HasHref(a, url) && Checkable(url) && url !in checked
    requires IsErrorStatus(head(url)) && a.text.Ok?
    ensures Reported(s + [a], head, url)
    ensures Record(s + [a], head, url) == BrokenLink(url, head(url).statusCode, Take(a.text.value, LinkTextCap))
    ensures Scanned(s + [a], head, checked + {url}, broken + [Record(s + [a], head, url)])
  {
    var t := s + [a];
    UrlsAppend(s, a);
    NewUrlFirst(s, a, url);
    assert Reported(t, head, url);
    OthersUnchanged(s, a, head);
    BrokenLinksExtend(s, t, head, broken, url);
  }

  /** The broken links of `s` followed by the record of `url`, the one new URL of
      `t`, are the broken links of `t`. */
  lemma BrokenLinksExtend(s: seq<Anchor>, t: seq<Anchor>, head: string -> HeadOutcome, broken: seq<BrokenLink>, url: string)
    requires BrokenLinksOf(s, head, broken) && Reported(t, head, url)
    requires url !in CheckableUrls(s) && CheckableUrls(t) == CheckableUrls(s) + {url}
    requires forall u :: u in CheckableUrls(s) ==> Reported(t, head, u) == Reported(s, head, u)
    requires forall u :: u in CheckableUrls(s) && Reported(s, head, u) ==> Record(t, head, u) == Record(s, head, u)
    ensures BrokenLinksOf(t, head, broken + [Record(t, head, url)])
  {
    var broken' := broken + [Record(t, head, url)];
    assert broken'[|broken|].url == url;
    forall k | 0 <= k < |broken'|
      ensures Reported(t, head, broken'[k].url) && broken'[k] == Record(t, head, broken'[k].url)
    {
      if k < |broken| {
        assert broken'[k] == broken[k];
        assert broken[k].url in CheckableUrls(s);
      }
    }
    forall j, k | 0 <= j < k < |broken'| ensures broken'[j].url != broken'[k].url {
      if k == |broken| {
        assert broken[j].url in CheckableUrls(s);
      }
    }
    forall u | Reported(t, head, u) ensures u in BrokenUrls(broken') {
      if u != url {
        var k :| 0 <= k < |broken| && broken[k].url == u;
        assert broken'[k].url == u;
      }
    }
  }

  lemma VisitScanned(s: seq<Anchor>, a: Anchor, head: string -> HeadOutcome, checked: set<string>, broken: seq<BrokenLink>)
    requires Scanned(s, head, checked, broken)
    ensures Scanned(s + [a], head, Visit(a, head, checked, broken).0, Visit(a, head, checked, broken).1)
    ensures |Visit(a, head, checked, broken).0| <= |checked| + 1
  {
    if a.href.Ok? && a.href.value.Some? && Checkable(a.href.value.value) && a.href.value.value !in checked {
      var url := a.href.value.value;
      if IsErrorStatus(head(url)) && a.text.Ok? {
        var record := BrokenLink(url, head(url).statusCode, Take(a.text.value, LinkTextCap));
        assert Visit(a, head, checked, broken) == (checked + {url}, broken + [record]);
        RecordScanned(s, a, head, checked, broken, url);
      } else {
        assert Visit(a, head, checked, broken) == (checked + {url}, broken);
        CheckScanned(s, a, head, checked, broken, url);
      }
    } else {
      assert Visit(a, head, checked, broken) == (checked, broken);
      SkipScanned(s, a, head, checked, broken);
    }
  }

  /** `check_links` after the anchors were queried successfully: the set of
      checked URLs and the broken links, in the order they were found. */
  method CheckLinks(anchors: seq<Anchor>, head: string -> HeadOutcome)
    returns (checked: set<string>, broken: seq<BrokenLink>)
    ensures checked == CheckableUrls(Examined(anchors))
    ensures |checked| <= LinkCap
    ensures forall url :: url in checked ==> Checkable(url)
    ensures forall k :: 0 <= k < |broken| ==>
      && broken[k].url in checked
      && head(broken[k].url) == Responded(broken[k].statusCode)
      && broken[k].statusCode >= 400
      && |broken[k].text| <= LinkTextCap
    ensures forall j, k :: 0 <= j < k < |broken| ==> broken[j].url != broken[k].url
    ensures forall k :: 0 <= k < |broken| ==>
      Reported(Examined(anchors), head, broken[k].url) && broken[k] == Record(Examined(anchors), head, broken[k].url)
    ensures forall url :: Reported(Examined(anchors), head, url) ==> url in BrokenUrls(broken)
    ensures |broken| <= |checked|
  {
    var links := Examined(anchors);
    checked := {};
    broken := [];
    var i := 0;
    while i < |links|
      invariant 0 <= i <= |links|
      invariant Scanned(links[..i], head, checked, broken)
      invariant |checked| <= i
    {
      assert links[..i + 1] == links[..i] + [links[i]];
      VisitScanned(links[..i], links[i], head, checked, broken);
      var step := Visit(links[i], head, checked, broken);
      checked, broken := step.0, step.1;
      i := i + 1;
    }
    assert links[..i] == links;
    DistinctUrlsCounted(broken);
    SubsetNoLarger(BrokenUrls(broken), checked);
  }

  const LinkErrorPrefix: string := "Link check error: "

  /** `check_links` as a whole: a failing anchor query is caught and reported as
      one error, leaving the link counters as they were (zero). */
  method CheckPageLinks(query: LinkQuery, head: string -> HeadOutcome)
    returns (totalLinks: nat, broken: seq<BrokenLink>, newErrors: seq<string>)
    ensures query.LinkQueryFailed? ==>
      totalLinks == 0 && broken == [] && newErrors == [LinkErrorPrefix + query.message]
    ensures query.Anchors? ==>
      && newErrors == []
      && totalLinks == |CheckableUrls(Examined(query.anchors))|
      && BrokenLinksOf(Examined(query.anchors), head, broken)
    ensures |broken| <= totalLinks <= LinkCap
  {
    match query {
      case LinkQueryFailed(message) =>
        totalLinks, broken, newErrors := 0, [], [LinkErrorPrefix + message];
      case Anchors(anchors) =>
        var checked;
        checked, broken := CheckLinks(anchors, head);
        totalLinks, newErrors := |checked|, [];
    }
  }
}

=== FILE: monitor.dfy ===
/** One monitoring run (main.py, `BaeminMonitor.run` and `main`): start the browser,
    load and classify the page, read its title, take a screenshot, and on an
    accessible page extract the slots and check the links. Every browser answer is
    an input (`Browser`); the process exit code is 0 exactly for a successful run. */
module Monitor {
  import opened Common
  import opened PageLoad
  import opened Slots
  import opened Links
  import opened Results
  import opened Sheets

  /** Starting the browser either works or raises (driver missing, crash). */
  datatype StartOutcome = Started | StartFailed(message: string)

  /** Reading the page title and then the current URL; either read may raise, and
      the first failure ends the reading. */
  datatype PageInfo = NoInfo | TitleOnly(title: string) | FullInfo(title: string, currentUrl: string)

  /** Everything the browser and the network answer during one run.
      `screenshotFault` is the error raised when the screenshot directory cannot be
      created: that call sits outside any handler in `take_screenshot`, so it ends
      the run. A failing save of the screenshot file itself is caught and ignored. */
  datatype Browser = Browser(
    start: StartOutcome,
    load: LoadOutcome,
    info: PageInfo,
    screenshotFault: Option<string>,
    slotQuery: string -> GroupQuery,
    links: LinkQuery,
    head: string -> HeadOutcome)

  /** `get_page_info`: records the title and current URL that could be read. */
  function GetPageInfo(r: RunResult, info: PageInfo): (r': RunResult)
    ensures r'.pageTitle == (if info.NoInfo? then r.pageTitle else Some(info.title))
    ensures r'.currentUrl == (if info.FullInfo? then Some(info.currentUrl) else r.currentUrl)
    ensures r' == r.(pageTitle := r'.pageTitle, currentUrl := r'.currentUrl)
  {
    match info
    case NoInfo => r
    case TitleOnly(t) => r.(pageTitle := Some(t))
    case FullInfo(t, u) => r.(pageTitle := Some(t), currentUrl := Some(u))
  }

  /** The status a run ends with, stated from the browser's answers alone. */
  function ExpectedStatus(env: Browser): RunStatus
  {
    if env.start.StartFailed? || env.screenshotFault.Some? then Error
    else if !env.load.Loaded? then Failed
    else if Classify(env.load.pageSource) == AccessBlocked then Blocked
    else Success
  }

  /** Everything a run promises about its record, stated from the clock, the
      settings and the browser's answers: the status, the access result, what is
      gathered on success, the page title and URL, and the errors in order. */
  ghost predicate RunOutcome(clock: Clock, settings: Settings, env: Browser, r: RunResult)
  {
    && Consistent(r)
    && r.status == ExpectedStatus(env)
    && r.status != Pending
    && r.url == settings.targetUrl
    && r.timestamp == clock.timestamp && r.date == clock.date && r.time == clock.time
    && r.access == (if env.start.StartFailed? then AccessUnknown else LoadPage(env.load).access)
    && (r.status == Success ==> r.access == AccessSuccess)
    && (r.status == Blocked ==> r.access == AccessBlocked)
    && (r.status == Failed ==> r.access == AccessTimeout || r.access == AccessError)
    // Slots and links are only gathered on a successful run.
    && (r.status != Success ==> r.slots == [] && r.brokenLinks == [] && r.totalLinks == 0)
    && (r.status == Success ==> r.slots == ExtractSlots(ConfiguredGroups(env.slotQuery)))
    && (r.status == Success && env.links.Anchors? ==>
          r.totalLinks == |CheckableUrls(Examined(env.links.anchors))|
          && BrokenLinksOf(Examined(env.links.anchors), env.head, r.brokenLinks))
    && (r.status == Success && env.links.LinkQueryFailed? ==> r.brokenLinks == [] && r.totalLinks == 0)
    // The title and the current URL are read from a loaded page, as far as they can be read.
    && r.pageTitle == (if env.start.Started? && env.load.Loaded? && !env.info.NoInfo? then Some(env.info.title) else None)
    && r.currentUrl == (if env.start.Started? && env.load.Loaded? && env.info.FullInfo? then Some(env.info.currentUrl) else None)
    // Errors: what went wrong, in the order it happened.
    && (env.start.StartFailed? ==> r.errors == [env.start.message])
    && (env.start.Started? ==>
          r.errors == LoadPage(env.load).newErrors
            + (if r.status == Success && env.links.LinkQueryFailed? then [LinkErrorPrefix + env.links.message] else [])
            + (if env.screenshotFault.Some? then [env.screenshotFault.value] else []))
    && (r.errors == [] <==>
          (r.status == Success || r.status == Blocked) && !(r.status == Success && env.links.LinkQueryFailed?))
  }

  /** The successful branch of `run`: the slots, then the links, then the status. */
  method Inspect(r: RunResult, env: Browser) returns (r': RunResult)
    ensures r' == r.(slots := r'.slots, totalSlots := |r'.slots|, totalLinks := r'.totalLinks,
      brokenLinks := r'.brokenLinks, brokenLinkCount := |r'.brokenLinks|, errors := r'.errors, status := Success)
    ensures r'.slots == ExtractSlots(ConfiguredGroups(env.slotQuery))
    ensures r'.errors == r.errors + (if env.links.LinkQueryFailed? then [LinkErrorPrefix + env.links.message] else [])
    ensures env.links.Anchors? ==>
      r'.totalLinks == |CheckableUrls(Examined(env.links.anchors))|
      && BrokenLinksOf(Examined(env.links.anchors), env.head, r'.brokenLinks)
    ensures env.links.LinkQueryFailed? ==> r'.brokenLinks == [] && r'.totalLinks == 0
    ensures |r'.brokenLinks| <= r'.totalLinks <= LinkCap
  {
    var slots := ExtractSlots(ConfiguredGroups(env.slotQuery));
    var totalLinks, broken, linkErrors := CheckPageLinks(env.links, env.head);
    r' := r.(slots := slots, totalSlots := |slots|, totalLinks := totalLinks, brokenLinks := broken,
      brokenLinkCount := |broken|, errors := r.errors + linkErrors, status := Success);
  }

  /** `BaeminMonitor.run`. */
  method Run(clock: Clock, settings: Settings, env: Browser) returns (r: RunResult)
    ensures RunOutcome(clock, settings, env, r)
  {
    r := NewResult(clock, settings);
    if env.start.StartFailed? {
      r := r.(status := Error, errors := r.errors + [env.start.message]);
      return;
    }
    var rep := LoadPage(env.load);
    r := r.(access := rep.access, errors := r.errors + rep.newErrors);
    if rep.loaded {
      r := GetPageInfo(r, env.info);
      if env.screenshotFault.Some? {
        r := r.(status := Error, errors := r.errors + [env.screenshotFault.value]);
        return;
      }
      if r.access == AccessSuccess {
        r := Inspect(r, env);
      } else {
        r := r.(status := Blocked);
      }
    } else {
      r := r.(status := Failed);
      if env.screenshotFault.Some? {
        r := r.(status := Error, errors := r.errors + [env.screenshotFault.value]);
      }
    }
  }

  /** The process exit code `main` returns. */
  function ExitCode(r: RunResult): (code: int)
    ensures code == 0 <==> r.status == Success
    ensures code == 0 || code == 1
  {
    if r.status == Success then 0 else 1
  }

  /** `main`: one run, then the spreadsheet row (when a spreadsheet is configured and
      its client can be created), then the exit code, which depends on the run's
      status only. */
  method MonitorOnce(clock: Clock, settings: Settings, env: Browser, client: SheetsClient)
    returns (r: RunResult, save: SaveReport, code: int)
    ensures code == 0 <==> ExpectedStatus(env) == Success
    ensures code == 0 || code == 1
    ensures save.row.Some? <==> settings.spreadsheetId != "" && client.Connected?
    ensures save.saved <==> settings.spreadsheetId != "" && client == Connected(false)
    ensures save.row.Some? ==> save.row.value == SheetRow(r)
    ensures RunOutcome(clock, settings, env, r)
  {
    r := Run(clock, settings, env);
    save := SaveToSheets(r, settings.spreadsheetId, client);
    code := ExitCode(r);
  }
}

=== FILE: pageload.dfy ===
/** Page acquisition (main.py, `BaeminMonitor.load_page` and `_scroll_page`):
    what the loader concludes from the navigation outcome and the page text,
    and which scroll offsets it visits. Navigation, waiting and the settle
    delays themselves belong to the browser and are inputs here. */
module PageLoad {
  import opened Common
  import opened Text

  /** The `access_status` field of a run result. */
  datatype AccessStatus = AccessUnknown | AccessSuccess | AccessBlocked | AccessTimeout | AccessError

  /** Reads a stored access-status name back. */
  function ParseAccess(name: string): Option<AccessStatus>
  {
    if name == "unknown" then Some(AccessUnknown)
    else if name == "success" then Some(AccessSuccess)
    else if name == "blocked" then Some(AccessBlocked)
    else if name == "timeout" then Some(AccessTimeout)
    else if name == "error" then Some(AccessError)
    else None
  }

  /** The stored name of an access status; each name reads back as its status, so
      distinct statuses are stored under distinct names. */
  function AccessName(a: AccessStatus): (name: string)
    ensures ParseAccess(name) == Some(a)
  {
    match a
    case AccessUnknown => "unknown"
    case AccessSuccess => "success"
    case AccessBlocked => "blocked"
    case AccessTimeout => "timeout"
    case AccessError => "error"
  }

  /** Terms on a security or bot-block notice ("security", "blocked", "restricted access"). */
  const BlockingKeywords: seq<string> := ["보안", "차단", "blocked", "access denied", "접근 제한"]

  /** A word that appears on the genuine site ("food-service business"). */
  const InDomainMarker: string := "외식업"

  predicate MentionsBlocking(lowered: string)
  {
    exists k :: 0 <= k < |BlockingKeywords| && Contains(lowered, BlockingKeywords[k])
  }

  /** The access heuristic: the lower-cased page source counts as a block page when it
      contains one of the blocking keywords but not the in-domain marker. */
  function Classify(pageSource: string): (a: AccessStatus)
    ensures a == AccessBlocked || a == AccessSuccess
    ensures a == AccessBlocked <==>
      && (exists k :: 0 <= k < |BlockingKeywords| && IsSubstring(BlockingKeywords[k], Lower(pageSource)))
      && !IsSubstring(InDomainMarker, Lower(pageSource))
  {
    var lowered := Lower(pageSource);
    if MentionsBlocking(lowered) && !Contains(lowered, InDomainMarker) then AccessBlocked else AccessSuccess
  }

  /** The heuristic ignores ASCII letter case. */
  lemma ClassifyIgnoresCase(pageSource: string)
    ensures Classify(Lower(pageSource)) == Classify(pageSource)
  {
    var lowered := Lower(pageSource);
    assert Lower(lowered) == lowered by {
      assert forall i :: 0 <= i < |lowered| ==> Lower(lowered)[i] == lowered[i];
    }
  }

  /** A page carrying the in-domain marker is never classified as blocked, whatever else it says. */
  lemma MarkerMeansSuccess(pageSource: string)
    requires IsSubstring(InDomainMarker, pageSource)
    ensures Classify(pageSource) == AccessSuccess
  {
    var i :| OccursAt(InDomainMarker, pageSource, i);
    var lowered := Lower(pageSource);
    assert lowered[i..i + |InDomainMarker|] == InDomainMarker;
    assert OccursAt(InDomainMarker, lowered, i);
  }

  /** A page mentioning "차단" ("blocked") without the in-domain marker is classified as blocked. */
  lemma BlockNoticeIsBlocked(pageSource: string)
    requires IsSubstring("차단", pageSource)
    requires !IsSubstring(InDomainMarker, Lower(pageSource))
    ensures Classify(pageSource) == AccessBlocked
  {
    var i :| OccursAt("차단", pageSource, i);
    var lowered := Lower(pageSource);
    assert lowered[i..i + 2] == "차단";
    assert OccursAt(BlockingKeywords[1], lowered, i);
  }

  /** What the browser reported for the navigation: the page source once the body
      element was present, a timeout, or another fault with its message. */
  datatype LoadOutcome = Loaded(pageSource: string) | TimedOut | LoadFault(message: string)

  /** What `load_page` contributes to the run result. */
  datatype LoadReport = LoadReport(loaded: bool, access: AccessStatus, newErrors: seq<string>)

  function LoadPage(outcome: LoadOutcome): (rep: LoadReport)
    ensures rep.loaded <==> outcome.Loaded?
    ensures rep.loaded ==> rep.newErrors == [] && rep.access == Classify(outcome.pageSource)
    ensures !rep.loaded ==> |rep.newErrors| == 1
    ensures rep.access == AccessTimeout <==> outcome.TimedOut?
    ensures rep.access == AccessError <==> outcome.LoadFault?
    ensures outcome.TimedOut? ==> rep.newErrors == ["Page load timeout"]
    ensures outcome.LoadFault? ==> rep.newErrors == ["Page load error: " + outcome.message]
  {
    match outcome
    case Loaded(src) => LoadReport(true, Classify(src), [])
    case TimedOut => LoadReport(false, AccessTimeout, ["Page load timeout"])
    case LoadFault(msg) => LoadReport(false, AccessError, ["Page load error: " + msg])
  }

  // ---------------------------------------------------------------------
  // Scrolling
  // ---------------------------------------------------------------------

  const ScrollStep: nat := 500
  const ScrollLimit: int := 5000

  /** Python's `range(start, stop, 500)`. */
  function StepRange(start: int, stop: int): (r: seq<int>)
    ensures start >= stop ==> r == []
    ensures forall k :: 0 <= k < |r| ==> r[k] == start + ScrollStep * k && r[k] < stop
    ensures start + ScrollStep * |r| >= stop
    decreases stop - start
  {
    if start >= stop then []
    else
      var rest := StepRange(start + ScrollStep, stop);
      var r := [start] + rest;
      assert forall k :: 1 <= k < |r| ==> r[k] == rest[k - 1];
      r
  }

  /** The offsets `_scroll_page` visits for a document of the given height:
      `range(0, min(height, 5000), 500)`. */
  function ScrollOffsets(height: int): (r: seq<int>)
    ensures |r| <= 10
    ensures forall k :: 0 <= k < |r| ==> r[k] == ScrollStep * k && r[k] < height
    ensures forall k :: 0 <= k && ScrollStep * k < height && ScrollStep * k < ScrollLimit ==> k < |r|
  {
    var stop := if height < ScrollLimit then height else ScrollLimit;
    var r := StepRange(0, stop);
    assert |r| > 0 ==> r[|r| - 1] == ScrollStep * (|r| - 1);
    r
  }

  /** Every position the page is scrolled to, ending with the return to the top. */
  function ScrollPositions(height: int): (r: seq<int>)
    ensures |r| >= 1 && r[|r| - 1] == 0
    ensures r[..|r| - 1] == ScrollOffsets(height)
  {
    ScrollOffsets(height) + [0]
  }
}

=== FILE: results.dfy ===
/** The result record one monitoring run fills in (main.py, `BaeminMonitor.__init__`),
    and the names under which its status fields are stored. */
module Results {
  import opened Common
  import opened PageLoad
  import opened Slots
  import opened Links

  /** The overall outcome of a run. */
  datatype RunStatus = Pending | Success | Failed | Blocked | Error

  /** Reads a stored status name back. */
  function ParseStatus(name: string): Option<RunStatus>
  {
    if name == "pending" then Some(Pending)
    else if name == "success" then Some(Success)
    else if name == "failed" then Some(Failed)
    else if name == "blocked" then Some(Blocked)
    else if name == "error" then Some(Error)
    else None
  }

  /** The stored name of a run status; each name reads back as its status, so
      distinct statuses are stored under distinct names. */
  function StatusName(s: RunStatus): (name: string)
    ensures ParseStatus(name) == Some(s)
  {
    match s
    case Pending => "pending"
    case Success => "success"
    case Failed => "failed"
    case Blocked => "blocked"
    case Error => "error"
  }

  /** Run-time settings read from the environment: the page to monitor and the
      spreadsheet to append to (empty when not configured). */
  datatype Settings = Settings(targetUrl: string, spreadsheetId: string)

  /** The start time of the run, already formatted in Korea Standard Time. */
  datatype Clock = Clock(timestamp: string, date: string, time: string)

  datatype RunResult = RunResult(
    timestamp: string,
    date: string,
    time: string,
    url: string,
    status: RunStatus,
    access: AccessStatus,
    slots: seq<Slot>,
    brokenLinks: seq<BrokenLink>,
    totalSlots: nat,
    totalLinks: nat,
    brokenLinkCount: nat,
    errors: seq<string>,
    pageTitle: Option<string>,
    currentUrl: Option<string>)

  /** The counters agree with the collections they count, and no more links are
      broken than were checked. */
  predicate Consistent(r: RunResult)
  {
    && r.totalSlots == |r.slots|
    && r.brokenLinkCount == |r.brokenLinks|
    && r.brokenLinkCount <= r.totalLinks <= LinkCap
  }

  /** The record before anything has been done: pending, access unknown, empty. */
  function NewResult(clock: Clock, settings: Settings): (r: RunResult)
    ensures Consistent(r)
    ensures r.status == Pending && r.access == AccessUnknown
    ensures r.slots == [] && r.brokenLinks == [] && r.errors == []
    ensures r.totalLinks == 0 && r.pageTitle.None? && r.currentUrl.None?
    ensures r.url == settings.targetUrl
    ensures r.timestamp == clock.timestamp && r.date == clock.date && r.time == clock.time
  {
    RunResult(clock.timestamp, clock.date, clock.time, settings.targetUrl, Pending, AccessUnknown,
      [], [], 0, 0, 0, [], None, None)
  }
}

=== FILE: sheetrow.dfy ===
/** The spreadsheet row a run is saved as (main.py, `save_to_sheets`): ten summary
    cells, then a type cell and a text cell for each of the first ten slots. The
    spreadsheet client itself is not modelled; appending either succeeds or raises. */
module Sheets {
  import opened Common
  import opened Text
  import opened PageLoad
  import opened Slots
  import opened Links
  import opened Results

  const SummaryWidth: nat := 10
  const RowSlotCap: nat := 10
  const RowUrlCap: nat := 5
  const RowErrorCap: nat := 3
  const RowTextCap: nat := 50
  const Separator: string := ", "

  datatype Cell = TextCell(text: string) | NumberCell(value: int)

  function Urls(links: seq<BrokenLink>): (us: seq<string>)
    ensures |us| == |links|
    ensures forall k :: 0 <= k < |us| ==> us[k] == links[k].url
  {
    seq(|links|, k requires 0 <= k < |links| => links[k].url)
  }

  /** The two cells of one slot: its type and its text cut to 50 characters. */
  function SlotPair(s: Slot): (c: seq<Cell>)
    ensures |c| == 2 && c[0] == TextCell(s.slotType) && c[1].TextCell?
    ensures |c[1].text| == Min(|s.text|, RowTextCap) && c[1].text == s.text[..|c[1].text|]
  {
    [TextCell(s.slotType), TextCell(Take(s.text, RowTextCap))]
  }

  /** The slot cells, two per slot, in slot order. */
  function SlotCells(slots: seq<Slot>): (cells: seq<Cell>)
    ensures |cells| == 2 * |slots|
    ensures forall i :: 0 <= i < |slots| ==> cells[2 * i..2 * i + 2] == SlotPair(slots[i])
  {
    if |slots| == 0 then []
    else
      var rest := SlotCells(slots[1..]);
      var cells := SlotPair(slots[0]) + rest;
      assert forall i :: 1 <= i < |slots| ==> cells[2 * i..2 * i + 2] == rest[2 * (i - 1)..2 * (i - 1) + 2];
      cells
  }

  /** The summary cells: date, time, title, status, access, the three counters, the
      first five broken URLs and the first three errors, each list joined by ", ". */
  function SummaryCells(r: RunResult): (cells: seq<Cell>)
    ensures |cells| == SummaryWidth
    ensures cells[0] == TextCell(r.date) && cells[1] == TextCell(r.time)
    ensures cells[2] == TextCell(if r.pageTitle.Some? then r.pageTitle.value else "")
    ensures cells[3].TextCell? && ParseStatus(cells[3].text) == Some(r.status)
    ensures cells[4].TextCell? && ParseAccess(cells[4].text) == Some(r.access)
    ensures Consistent(r) ==>
      cells[5] == NumberCell(|r.slots|) && cells[6] == NumberCell(r.totalLinks) && cells[7] == NumberCell(|r.brokenLinks|)
  {
    [ TextCell(r.date), TextCell(r.time), TextCell(OrEmpty(r.pageTitle)),
      TextCell(StatusName(r.status)), TextCell(AccessName(r.access)),
      NumberCell(r.totalSlots), NumberCell(r.totalLinks), NumberCell(r.brokenLinkCount),
      TextCell(Join(Separator, Urls(Take(r.brokenLinks, RowUrlCap)))),
      TextCell(Join(Separator, Take(r.errors, RowErrorCap))) ]
  }

  function SheetRow(r: RunResult): (row: seq<Cell>)
    ensures |row| == SummaryWidth + 2 * Min(RowSlotCap, |r.slots|)
    ensures row[..SummaryWidth] == SummaryCells(r)
    ensures forall i :: 0 <= i < Min(RowSlotCap, |r.slots|) ==>
      row[SummaryWidth + 2 * i..SummaryWidth + 2 * i + 2] == SlotPair(r.slots[i])
  {
    var slots := Take(r.slots, RowSlotCap);
    var summary, cells := SummaryCells(r), SlotCells(slots);
    RowLayout(summary, cells);
    assert forall i :: 0 <= i < |slots| ==>
      (summary + cells)[SummaryWidth + 2 * i..SummaryWidth + 2 * i + 2] == SlotPair(r.slots[i]) by {
      forall i | 0 <= i < |slots|
        ensures (summary + cells)[SummaryWidth + 2 * i..SummaryWidth + 2 * i + 2] == SlotPair(r.slots[i])
      {
        assert slots[i] == r.slots[i];
        assert cells[2 * i..2 * i + 2] == SlotPair(slots[i]);
      }
    }
    summary + cells
  }

  /** A row is its summary cells followed by its slot cells, in pairs. */
  lemma RowLayout(summary: seq<Cell>, cells: seq<Cell>)
    ensures (summary + cells)[..|summary|] == summary
    ensures forall i :: 0 <= i && 2 * i + 2 <= |cells| ==>
      (summary + cells)[|summary| + 2 * i..|summary| + 2 * i + 2] == cells[2 * i..2 * i + 2]
  {
    forall i | 0 <= i && 2 * i + 2 <= |cells|
      ensures (summary + cells)[|summary| + 2 * i..|summary| + 2 * i + 2] == cells[2 * i..2 * i + 2]
    {
      SliceAfter(summary, cells, 2 * i, 2 * i + 2);
    }
  }

  lemma SliceAfter<T>(a: seq<T>, b: seq<T>, lo: nat, hi: nat)
    requires lo <= hi <= |b|
    ensures (a + b)[|a| + lo..|a| + hi] == b[lo..hi]
  {
    var x, y := (a + b)[|a| + lo..|a| + hi], b[lo..hi];
    assert forall k :: 0 <= k < |x| ==> x[k] == y[k];
  }

  /** The broken-URL cell is empty when there are no broken links, and otherwise
      splits back into the first five broken URLs, provided no URL contains the
      separator. */
  lemma BrokenUrlCellReadsBack(r: RunResult)
    requires forall k :: 0 <= k < |r.brokenLinks| ==> !IsSubstring(Separator, r.brokenLinks[k].url)
    ensures SheetRow(r)[8].TextCell?
    ensures r.brokenLinks == [] ==> SheetRow(r)[8].text == ""
    ensures r.brokenLinks != [] ==> Split(SheetRow(r)[8].text, Separator) == Urls(Take(r.brokenLinks, RowUrlCap))
  {
    var urls := Urls(Take(r.brokenLinks, RowUrlCap));
    assert SheetRow(r)[8] == SheetRow(r)[..SummaryWidth][8] == SummaryCells(r)[8];
    if r.brokenLinks != [] {
      forall k | 0 <= k < |urls| ensures NoEarlySeparator(urls[k], Separator) {
        CommaSpaceFree(urls[k]);
      }
      SplitJoin(Separator, urls);
    }
  }

  /** The error cell is empty when there are no errors, and otherwise splits back
      into the first three errors, provided none contains the separator. */
  lemma ErrorCellReadsBack(r: RunResult)
    requires forall k :: 0 <= k < |r.errors| ==> !IsSubstring(Separator, r.errors[k])
    ensures SheetRow(r)[9].TextCell?
    ensures r.errors == [] ==> SheetRow(r)[9].text == ""
    ensures r.errors != [] ==> Split(SheetRow(r)[9].text, Separator) == Take(r.errors, RowErrorCap)
  {
    var errors := Take(r.errors, RowErrorCap);
    assert SheetRow(r)[9] == SheetRow(r)[..SummaryWidth][9] == SummaryCells(r)[9];
    if r.errors != [] {
      forall k | 0 <= k < |errors| ensures NoEarlySeparator(errors[k], Separator) {
        CommaSpaceFree(errors[k]);
      }
      SplitJoin(Separator, errors);
    }
  }

  /** How the spreadsheet client (sheets_manager.py) behaves on this run. Creating
      it authenticates, which raises when `credentials.json` is missing or unusable
      (`AuthFails`). Once connected, `append_row` may raise (`appendRaises`). An HTTP
      error while the client looks up the sheet or appends the row is caught inside
      the client and does not raise, so it counts as `appendRaises == false`. */
  datatype SheetsClient = AuthFails | Connected(appendRaises: bool)

  /** What `save_to_sheets` did: the row it built and handed to the client (none when
      no spreadsheet is configured or the client could not be created) and whether
      it reported success. */
  datatype SaveReport = SaveReport(row: Option<seq<Cell>>, saved: bool)

  /** `save_to_sheets`: without a spreadsheet id nothing happens. The client is
      created before the row is built, so a failing authentication leaves no row.
      Any exception is caught and reported as not saved; the client's own answer is
      not consulted, so a row the client failed to append is still reported as saved. */
  function SaveToSheets(r: RunResult, spreadsheetId: string, client: SheetsClient): (rep: SaveReport)
    ensures rep.row.Some? <==> spreadsheetId != "" && client.Connected?
    ensures rep.saved <==> spreadsheetId != "" && client == Connected(false)
    ensures rep.row.Some? ==> rep.row.value == SheetRow(r)
  {
    if spreadsheetId == "" then SaveReport(None, false)
    else if client.AuthFails? then SaveReport(None, false)
    else SaveReport(Some(SheetRow(r)), !client.appendRaises)
  }
}

=== FILE: slots.dfy ===
/** Slot extraction (main.py, `BaeminMonitor.extract_slots`): one pass over the
    configured selector groups in order, keeping at most 20 matches per group,
    dropping near-empty texts, and numbering the kept elements with a single
    counter that runs across all groups. */
module Slots {
  import opened Common
  import opened Text

  const GroupCap: nat := 20
  const TextCap: nat := 100
  const MinTextLength: nat := 2

  /** The configured selector groups, in declaration order: slot type and CSS selector. */
  const SlotSelectors: seq<(string, string)> := [
    ("main_banner", ".main-banner, .banner, [class*=\"banner\"], [class*=\"slide\"], [class*=\"hero\"]"),
    ("content_cards", ".card, .content-card, [class*=\"card\"], [class*=\"article\"], [class*=\"post\"]"),
    ("menu_items", ".menu-item, .nav-item, [class*=\"menu\"], [class*=\"nav\"]"),
    ("links", "a[href]"),
    ("images", "img[src]"),
    ("sections", "section, [class*=\"section\"], [class*=\"container\"]")
  ]

  /** What the browser reports about one matched element. `None` marks an
      attribute the element does not carry. */
  datatype Element = Element(
    text: string,
    tag: string,
    href: Option<string>,
    src: Option<string>,
    alt: Option<string>,
    visible: bool)

  /** An element whose properties could be read, or one that raised while being read. */
  datatype ElementRead = Readable(element: Element) | Unreadable

  /** The answer to one selector query: the matches in document order, or a fault. */
  datatype GroupQuery = Matched(elements: seq<ElementRead>) | QueryFailed

  datatype SelectorGroup = SelectorGroup(slotType: string, query: GroupQuery)

  /** A slot's position in the run; it is written out as `IndexLabel(number)`, e.g. "S07". */
  datatype SlotIndex = SlotIndex(number: nat)

  /** One extracted slot. `href` is present only for anchors, `src` and `alt` only for images. */
  datatype Slot = Slot(
    index: SlotIndex,
    slotType: string,
    text: string,
    tag: string,
    visible: bool,
    href: Option<string>,
    src: Option<string>,
    alt: Option<string>)

  /** Python's `elem.get_attribute(name) or ''`. */
  function OrEmpty(a: Option<string>): string
  {
    if a.Some? then a.value else ""
  }

  /** An element becomes a slot when it can be read and its stripped text has at least two characters. */
  predicate Keeps(e: ElementRead)
  {
    e.Readable? && |Strip(e.element.text)| >= MinTextLength
  }

  /** The elements of a group that become slots: the readable ones whose stripped
      text has at least two characters, in match order (see `KeptSelects`). */
  function Kept(es: seq<ElementRead>): (r: seq<Element>)
    ensures |r| <= |es|
    ensures forall k :: 0 <= k < |r| ==> |Strip(r[k].text)| >= MinTextLength
  {
    if |es| == 0 then []
    else
      var rest := Kept(es[1..]);
      if Keeps(es[0]) then [es[0].element] + rest else rest
  }

  /** `ks` is the subsequence of the reads `es` that pass `keep`, picked at the
      positions `idx`: the j-th element of `ks` is read at `idx[j]`, the positions
      increase, and every position that passes is among them. */
  ghost predicate Selects(es: seq<ElementRead>, keep: ElementRead -> bool, ks: seq<Element>, idx: seq<nat>)
  {
    && |idx| == |ks|
    && (forall j :: 0 <= j < |idx| ==> idx[j] < |es| && keep(es[idx[j]]) && es[idx[j]] == Readable(ks[j]))
    && (forall j, j' :: 0 <= j < j' < |idx| ==> idx[j] < idx[j'])
    && (forall i {:trigger i in idx} :: 0 <= i < |es| && keep(es[i]) ==> i in idx)
  }

  /** `Kept` keeps exactly the reads that `Keeps`, in match order. */
  lemma {:induction false} KeptSelects(es: seq<ElementRead>) returns (idx: seq<nat>)
    ensures Selects(es, Keeps, Kept(es), idx)
  {
    if |es| == 0 {
      idx := [];
    } else {
      var tail := KeptSelects(es[1..]);
      idx := SelectsStep(es, Keeps, Kept(es[1..]), tail);
    }
  }

  /** One step of `KeptSelects`: the selection of `es[1..]` extends to `es`. */
  lemma SelectsStep(es: seq<ElementRead>, keep: ElementRead -> bool, ks: seq<Element>, tail: seq<nat>)
    returns (idx: seq<nat>)
    requires |es| > 0 && Selects(es[1..], keep, ks, tail)
    requires forall e :: keep(e) ==> e.Readable?
    ensures Selects(es, keep, if keep(es[0]) then [es[0].element] + ks else ks, idx)
  {
    var shifted := ShiftSelection(es, keep, ks, tail);
    if keep(es[0]) {
      idx := SelectsPrepend(es, keep, ks, shifted);
    } else {
      idx := shifted;
    }
  }

  /** The positions of a selection of `es[1..]`, moved up by one to positions of `es`. */
  lemma ShiftSelection(es: seq<ElementRead>, keep: ElementRead -> bool, ks: seq<Element>, tail: seq<nat>)
    returns (shifted: seq<nat>)
    requires |es| > 0 && Selects(es[1..], keep, ks, tail)
    ensures |shifted| == |ks|
    ensures forall j :: 0 <= j < |shifted| ==> 0 < shifted[j] < |es| && keep(es[shifted[j]]) && es[shifted[j]] == Readable(ks[j])
    ensures forall j, j' :: 0 <= j < j' < |shifted| ==> shifted[j] < shifted[j']
    ensures forall i {:trigger i in shifted} :: 1 <= i < |es| && keep(es[i]) ==> i in shifted
  {
    shifted := Shift(tail);
    forall j | 0 <= j < |tail|
      ensures shifted[j] < |es| && keep(es[shifted[j]]) && es[shifted[j]] == Readable(ks[j])
    {
      assert es[shifted[j]] == es[1..][tail[j]];
    }
    forall i | 1 <= i < |es| && keep(es[i]) ensures i in shifted {
      assert es[i] == es[1..][i - 1];
      assert i - 1 in tail;
      var j :| 0 <= j < |tail| && tail[j] == i - 1;
      assert shifted[j] == i;
    }
  }

  /** A first read that passes goes in front of the shifted selection of the rest. */
  lemma SelectsPrepend(es: seq<ElementRead>, keep: ElementRead -> bool, ks: seq<Element>, shifted: seq<nat>)
    returns (idx: seq<nat>)
    requires |es| > 0 && keep(es[0]) && es[0].Readable? && |shifted| == |ks|
    requires forall j :: 0 <= j < |shifted| ==> 0 < shifted[j] < |es| && keep(es[shifted[j]]) && es[shifted[j]] == Readable(ks[j])
    requires forall j, j' :: 0 <= j < j' < |shifted| ==> shifted[j] < shifted[j']
    requires forall i {:trigger i in shifted} :: 1 <= i < |es| && keep(es[i]) ==> i in shifted
    ensures Selects(es, keep, [es[0].element] + ks, idx)
  {
    idx := [0] + shifted;
    var all := [es[0].element] + ks;
    forall j | 1 <= j < |idx| ensures idx[j] < |es| && keep(es[idx[j]]) && es[idx[j]] == Readable(all[j]) {
      assert idx[j] == shifted[j - 1] && all[j] == ks[j - 1];
    }
    forall j, j' | 0 <= j < j' < |idx| ensures idx[j] < idx[j'] {
      assert idx[j'] == shifted[j' - 1];
    }
    forall i | 0 <= i < |es| && keep(es[i]) ensures i in idx {
      if i > 0 {
        assert i in shifted;
        var j :| 0 <= j < |shifted| && shifted[j] == i;
        assert idx[j + 1] == i;
      }
    }
  }

  /** Every read that `Keeps` contributes its element to `Kept`. */
  lemma {:induction false} KeptComplete(es: seq<ElementRead>)
    ensures forall i :: 0 <= i < |es| && Keeps(es[i]) ==> es[i].element in Kept(es)
  {
    var idx := KeptSelects(es);
    assert Selects(es, Keeps, Kept(es), idx);
    forall i | 0 <= i < |es| && Keeps(es[i]) ensures es[i].element in Kept(es) {
      assert i in idx;
      var j :| 0 <= j < |idx| && idx[j] == i;
      assert Kept(es)[j] == es[i].element;
    }
  }

  /** Positions in a tail, as positions of the whole sequence. */
  function Shift(tail: seq<nat>): (shifted: seq<nat>)
    ensures |shifted| == |tail|
    ensures forall j :: 0 <= j < |tail| ==> shifted[j] == tail[j] + 1
  {
    seq(|tail|, j requires 0 <= j < |tail| => tail[j] + 1)
  }

  function MakeSlot(n: nat, slotType: string, e: Element): (s: Slot)
    ensures s.index == SlotIndex(n) && s.slotType == slotType
    ensures s.text == Take(Strip(e.text), TextCap) && |s.text| <= TextCap
    ensures s.tag == e.tag && s.visible == e.visible
    ensures s.href.Some? <==> e.tag == "a"
    ensures s.src.Some? <==> e.tag == "img"
    ensures s.alt.Some? <==> e.tag == "img"
    ensures s.href.Some? ==> s.href.value == OrEmpty(e.href)
    ensures s.src.Some? ==> s.src.value == OrEmpty(e.src) && s.alt.value == OrEmpty(e.alt)
  {
    Slot(SlotIndex(n), slotType, Take(Strip(e.text), TextCap), e.tag, e.visible,
         if e.tag == "a" then Some(OrEmpty(e.href)) else None,
         if e.tag == "img" then Some(OrEmpty(e.src)) else None,
         if e.tag == "img" then Some(OrEmpty(e.alt)) else None)
  }

  /** A candidate for a slot: the slot type of its group and the element. */
  type Candidate = (string, Element)

  function Tagged(slotType: string, es: seq<Element>): (r: seq<Candidate>)
    ensures |r| == |es|
    ensures forall k :: 0 <= k < |r| ==> r[k] == (slotType, es[k])
  {
    seq(|es|, k requires 0 <= k < |es| => (slotType, es[k]))
  }

  /** The reference numbering: the k-th candidate becomes a slot numbered `next + k`. */
  function Number(next: nat, cs: seq<Candidate>): (r: seq<Slot>)
    ensures |r| == |cs|
    decreases |cs|
  {
    if |cs| == 0 then [] else [MakeSlot(next, cs[0].0, cs[0].1)] + Number(next + 1, cs[1..])
  }

  lemma {:induction false} NumberIndex(next: nat, cs: seq<Candidate>, k: nat)
    requires k < |cs|
    ensures Number(next, cs)[k] == MakeSlot(next + k, cs[k].0, cs[k].1)
    decreases k
  {
    if k > 0 {
      NumberIndex(next + 1, cs[1..], k - 1);
    }
  }

  lemma {:induction false} NumberAppend(next: nat, a: seq<Candidate>, b: seq<Candidate>, mid: nat)
    requires mid == next + |a|
    ensures Number(next, a + b) == Number(next, a) + Number(mid, b)
    decreases |a|
  {
    if |a| > 0 {
      assert (a + b)[1..] == a[1..] + b;
      NumberAppend(next + 1, a[1..], b, mid);
    } else {
      assert a + b == b;
    }
  }

  lemma TaggedTail(slotType: string, es: seq<Element>)
    requires |es| > 0
    ensures Tagged(slotType, es)[1..] == Tagged(slotType, es[1..])
  {
    var x, y := Tagged(slotType, es)[1..], Tagged(slotType, es[1..]);
    assert forall k :: 0 <= k < |x| ==> x[k] == y[k];
  }

  /** The inner loop over one group's (already capped) matches, with the slot counter
      at `next`: an element that is skipped does not advance the counter. */
  function ScanGroup(slotType: string, es: seq<ElementRead>, next: nat): (r: seq<Slot>)
    ensures r == Number(next, Tagged(slotType, Kept(es)))
  {
    if |es| == 0 then []
    else if !Keeps(es[0]) then
      assert Kept(es) == Kept(es[1..]);
      ScanGroup(slotType, es[1..], next)
    else
      var rest := ScanGroup(slotType, es[1..], next + 1);
      assert Kept(es) == [es[0].element] + Kept(es[1..]);
      TaggedTail(slotType, Kept(es));
      [MakeSlot(next, slotType, es[0].element)] + rest
  }

  /** A group's candidates: the kept elements among its first 20 matches, in match
      order; a failed query contributes none. */
  function GroupCandidates(g: SelectorGroup): (r: seq<Candidate>)
    ensures |r| <= GroupCap
    ensures forall k :: 0 <= k < |r| ==> r[k].0 == g.slotType && |Strip(r[k].1.text)| >= MinTextLength
    ensures g.query.QueryFailed? ==> r == []
  {
    match g.query
    case QueryFailed => []
    case Matched(es) => Tagged(g.slotType, Kept(es[..Min(GroupCap, |es|)]))
  }

  /** Every match among a group's first 20 that `Keeps` is one of its candidates. */
  lemma GroupCandidatesComplete(g: SelectorGroup)
    requires g.query.Matched?
    ensures forall i :: 0 <= i < Min(GroupCap, |g.query.elements|) && Keeps(g.query.elements[i]) ==>
      (g.slotType, g.query.elements[i].element) in GroupCandidates(g)
  {
    var es := g.query.elements;
    var first := es[..Min(GroupCap, |es|)];
    var kept := Kept(first);
    var r := GroupCandidates(g);
    KeptComplete(first);
    forall i | 0 <= i < |first| && Keeps(es[i]) ensures (g.slotType, es[i].element) in r {
      assert first[i] == es[i];
      var k :| 0 <= k < |kept| && kept[k] == es[i].element;
      assert r[k] == (g.slotType, es[i].element);
    }
  }

  /** The slots one group yields when the counter stands at `next`. */
  function GroupSlots(g: SelectorGroup, next: nat): (r: seq<Slot>)
    ensures r == Number(next, GroupCandidates(g))
  {
    match g.query
    case QueryFailed => []
    case Matched(es) => ScanGroup(g.slotType, es[..Min(GroupCap, |es|)], next)
  }

  /** All candidates in the order they are numbered, group after group. */
  function Candidates(groups: seq<SelectorGroup>): (r: seq<Candidate>)
    ensures forall k :: 0 <= k < |r| ==> |Strip(r[k].1.text)| >= MinTextLength
  {
    if |groups| == 0 then []
    else
      var mine := GroupCandidates(groups[0]);
      var later := Candidates(groups[1..]);
      var all := mine + later;
      assert forall k :: 0 <= k < |all| ==> |Strip(all[k].1.text)| >= MinTextLength by {
        forall k | 0 <= k < |all| ensures |Strip(all[k].1.text)| >= MinTextLength {
          if k < |mine| {
            assert all[k] == mine[k];
          } else {
            assert all[k] == later[k - |mine|];
          }
        }
      }
      all
  }

  /** A candidate is among all candidates exactly when it is a candidate of some group. */
  lemma {:induction false} CandidatesFromGroups(groups: seq<SelectorGroup>)
    ensures forall c :: c in Candidates(groups) <==> exists i :: 0 <= i < |groups| && c in GroupCandidates(groups[i])
  {
    if |groups| > 0 {
      CandidatesFromGroups(groups[1..]);
      var mine := GroupCandidates(groups[0]);
      var later := Candidates(groups[1..]);
      assert Candidates(groups) == mine + later;
      forall c ensures c in Candidates(groups) <==> exists i :: 0 <= i < |groups| && c in GroupCandidates(groups[i]) {
        if c in later {
          var i :| 0 <= i < |groups[1..]| && c in GroupCandidates(groups[1..][i]);
          assert groups[1..][i] == groups[i + 1];
        }
        if exists i :: 0 <= i < |groups| && c in GroupCandidates(groups[i]) {
          var i :| 0 <= i < |groups| && c in GroupCandidates(groups[i]);
          if i > 0 {
            assert groups[i] == groups[1..][i - 1];
          }
        }
      }
    }
  }

  /** The outer loop over the groups, with the counter at `next`: the counter is
      carried from one group to the next, never reset, so the candidates of all
      groups are numbered consecutively from `next`. */
  function ExtractFrom(groups: seq<SelectorGroup>, next: nat): (r: seq<Slot>)
    ensures r == Number(next, Candidates(groups))
  {
    if |groups| == 0 then []
    else
      var here := GroupSlots(groups[0], next);
      var after := next + |here|;
      var r := here + ExtractFrom(groups[1..], after);
      assert Candidates(groups) == GroupCandidates(groups[0]) + Candidates(groups[1..]);
      NumberAppend(next, GroupCandidates(groups[0]), Candidates(groups[1..]), after);
      r
  }

  /** `extract_slots`: the counter starts at 1, so the k-th slot (from 0) is numbered k + 1
      (label S01, S02, ...); each slot is built from its candidate, its text is at most
      100 characters taken from a stripped text of at least two, and it carries the
      tag-dependent attributes. */
  function ExtractSlots(groups: seq<SelectorGroup>): (r: seq<Slot>)
    ensures |r| == |Candidates(groups)|
    ensures forall k :: 0 <= k < |r| ==> r[k] == MakeSlot(k + 1, Candidates(groups)[k].0, Candidates(groups)[k].1)
    ensures forall k :: 0 <= k < |r| ==>
      && r[k].index == SlotIndex(k + 1)
      && |Strip(Candidates(groups)[k].1.text)| >= MinTextLength
      && |r[k].text| <= TextCap
      && (r[k].href.Some? <==> r[k].tag == "a")
      && (r[k].src.Some? <==> r[k].tag == "img")
      && (r[k].alt.Some? <==> r[k].tag == "img")
  {
    var r := ExtractFrom(groups, 1);
    forall k | 0 <= k < |r| ensures r[k] == MakeSlot(k + 1, Candidates(groups)[k].0, Candidates(groups)[k].1) {
      NumberIndex(1, Candidates(groups), k);
    }
    r
  }

  /** At most 20 candidates come from each group. */
  lemma {:induction false} CandidatesBound(groups: seq<SelectorGroup>)
    ensures |Candidates(groups)| <= 20 * |groups|
  {
    if |groups| > 0 {
      CandidatesBound(groups[1..]);
    }
  }

  /** The slot types of a sequence of slots, in order. */
  function SlotTypes(slots: seq<Slot>): (ts: seq<string>)
    ensures |ts| == |slots|
  {
    seq(|slots|, k requires 0 <= k < |slots| => slots[k].slotType)
  }

  function CandidateTypes(cs: seq<Candidate>): (ts: seq<string>)
    ensures |ts| == |cs|
  {
    seq(|cs|, k requires 0 <= k < |cs| => cs[k].0)
  }

  predicate DistinctSlotTypes(groups: seq<SelectorGroup>)
  {
    forall i, j :: 0 <= i < j < |groups| ==> groups[i].slotType != groups[j].slotType
  }

  lemma {:induction false} CandidateTypeCount(groups: seq<SelectorGroup>, t: string)
    requires DistinctSlotTypes(groups)
    ensures multiset(CandidateTypes(Candidates(groups)))[t] <= GroupCap
    ensures (forall i :: 0 <= i < |groups| ==> groups[i].slotType != t) ==>
      multiset(CandidateTypes(Candidates(groups)))[t] == 0
  {
    if |groups| > 0 {
      var mine := GroupCandidates(groups[0]);
      var later := Candidates(groups[1..]);
      assert Candidates(groups) == mine + later;
      CandidateTypesAppend(mine, later);
      assert DistinctSlotTypes(groups[1..]);
      CandidateTypeCount(groups[1..], t);
      GroupTypeCount(groups[0], t);
      if groups[0].slotType == t {
        assert forall i :: 0 <= i < |groups[1..]| ==> groups[1..][i].slotType != t;
      }
    } else {
      assert CandidateTypes(Candidates(groups)) == [];
    }
  }

  lemma CandidateTypesAppend(a: seq<Candidate>, b: seq<Candidate>)
    ensures CandidateTypes(a + b) == CandidateTypes(a) + CandidateTypes(b)
  {
    var x, y := CandidateTypes(a + b), CandidateTypes(a) + CandidateTypes(b);
    forall k | 0 <= k < |x| ensures x[k] == y[k] {
      if k < |a| {
        assert (a + b)[k] == a[k];
      } else {
        assert (a + b)[k] == b[k - |a|];
      }
    }
  }

  lemma GroupTypeCount(g: SelectorGroup, t: string)
    ensures multiset(CandidateTypes(GroupCandidates(g)))[t] == if g.slotType == t then |GroupCandidates(g)| else 0
  {
    var ts := CandidateTypes(GroupCandidates(g));
    assert forall k :: 0 <= k < |ts| ==> ts[k] == g.slotType;
    SameTypeCount(ts, g.slotType);
    if g.slotType != t {
      assert t !in ts;
    }
  }

  lemma {:induction false} SameTypeCount(ts: seq<string>, t: string)
    requires forall k :: 0 <= k < |ts| ==> ts[k] == t
    ensures multiset(ts)[t] == |ts|
  {
    if |ts| > 0 {
      assert ts == [ts[0]] + ts[1..];
      SameTypeCount(ts[1..], t);
    }
  }

  /** With the configured (distinct) slot types, extraction yields at most 20 slots of any one type. */
  lemma SlotsPerTypeBounded(groups: seq<SelectorGroup>, t: string)
    requires DistinctSlotTypes(groups)
    ensures multiset(SlotTypes(ExtractSlots(groups)))[t] <= GroupCap
  {
    var r := ExtractSlots(groups);
    assert SlotTypes(r) == CandidateTypes(Candidates(groups));
    CandidateTypeCount(groups, t);
  }

  /** The configured groups paired with the browser's answer to each selector. */
  function ConfiguredGroups(query: string -> GroupQuery): (gs: seq<SelectorGroup>)
    ensures |gs| == |SlotSelectors|
    ensures forall i :: 0 <= i < |gs| ==> gs[i] == SelectorGroup(SlotSelectors[i].0, query(SlotSelectors[i].1))
    ensures DistinctSlotTypes(gs)
  {
    seq(|SlotSelectors|, i requires 0 <= i < |SlotSelectors| => SelectorGroup(SlotSelectors[i].0, query(SlotSelectors[i].1)))
  }
}

=== FILE: text.dfy ===
/** String helpers with the meaning Python gives them in the monitor:
    lower-casing, stripping, slicing, substring tests, joining and the
    zero-padded slot labels. */
module Text {
  import opened Common

  // ---------------------------------------------------------------------
  // Lower-casing (ASCII letters only)
  // ---------------------------------------------------------------------

  predicate IsAsciiUpper(c: char)
  {
    'A' <= c <= 'Z'
  }

  function LowerChar(c: char): char
  {
    if IsAsciiUpper(c) then (c as int + 32) as char else c
  }

  /** Lower-cases the ASCII letters of `s` and leaves every other character alone. */
  function Lower(s: string): (r: string)
    ensures |r| == |s|
    ensures forall i :: 0 <= i < |r| ==> !IsAsciiUpper(r[i])
    ensures forall i :: 0 <= i < |r| ==>
      if IsAsciiUpper(s[i]) then r[i] as int == s[i] as int + 32 else r[i] == s[i]
  {
    seq(|s|, i requires 0 <= i < |s| => LowerChar(s[i]))
  }

  // ---------------------------------------------------------------------
  // Whitespace and str.strip()
  // ---------------------------------------------------------------------

  /** The characters Python's `str.isspace` accepts, hence the ones `str.strip()` removes:
      \t \n \v \f \r, the four information separators, the space, NEL, NBSP,
      OGHAM SPACE MARK, the spaces U+2000 to U+200A, LINE and PARAGRAPH SEPARATOR,
      NARROW NBSP, MEDIUM MATHEMATICAL SPACE and the IDEOGRAPHIC SPACE. */
  const SpaceChars: set<char> := {
    '\t', '\n', '\U{000B}', '\U{000C}', '\r',
    '\U{001C}', '\U{001D}', '\U{001E}', '\U{001F}', ' ',
    '\U{0085}', '\U{00A0}', '\U{1680}',
    '\U{2000}', '\U{2001}', '\U{2002}', '\U{2003}', '\U{2004}', '\U{2005}',
    '\U{2006}', '\U{2007}', '\U{2008}', '\U{2009}', '\U{200A}',
    '\U{2028}', '\U{2029}', '\U{202F}', '\U{205F}', '\U{3000}'
  }

  predicate IsSpace(c: char)
  {
    c in SpaceChars
  }

  predicate AllSpace(s: string)
  {
    forall i :: 0 <= i < |s| ==> IsSpace(s[i])
  }

  /** `r` neither starts nor ends with whitespace. */
  predicate Tight(r: string)
  {
    |r| == 0 || (!IsSpace(r[0]) && !IsSpace(r[|r| - 1]))
  }

  /** Python's `str.strip()` with no argument: drop whitespace from the front,
      then from the back, until neither end is whitespace. */
  function Strip(s: string): (r: string)
    ensures |r| <= |s|
    ensures Tight(r)
    decreases |s|
  {
    if |s| == 0 then s
    else if IsSpace(s[0]) then Strip(s[1..])
    else if IsSpace(s[|s| - 1]) then Strip(s[..|s| - 1])
    else s
  }

  /** `Strip(s)` is `s[i..j]` with only whitespace outside `i..j`. */
  lemma {:induction false} StripTrims(s: string) returns (i: nat, j: nat)
    ensures i <= j <= |s| && Strip(s) == s[i..j]
    ensures AllSpace(s[..i]) && AllSpace(s[j..])
    decreases |s|
  {
    if |s| == 0 {
      i, j := 0, 0;
    } else if IsSpace(s[0]) {
      var t := s[1..];
      var i', j' := StripTrims(t);
      i, j := i' + 1, j' + 1;
      assert Strip(s) == s[i..j] by {
        assert t[i'..j'] == s[i..j];
      }
      assert AllSpace(s[..i]) by {
        assert s[..i] == [s[0]] + t[..i'];
      }
      assert AllSpace(s[j..]) by {
        assert s[j..] == t[j'..];
      }
    } else if IsSpace(s[|s| - 1]) {
      var t := s[..|s| - 1];
      i, j := StripTrims(t);
      assert Strip(s) == s[i..j] by {
        assert t[i..j] == s[i..j];
      }
      assert AllSpace(s[..i]) by {
        assert s[..i] == t[..i];
      }
      assert AllSpace(s[j..]) by {
        assert s[j..] == t[j..] + [s[|s| - 1]];
      }
    } else {
      i, j := 0, |s|;
    }
  }

  /** Stripping is determined by its contract: trimming whitespace off both ends of
      `s` so that neither end is whitespace any more can only give `Strip(s)`. */
  lemma {:induction false} StripUnique(s: string, i: nat, j: nat)
    requires i <= j <= |s| && AllSpace(s[..i]) && AllSpace(s[j..]) && Tight(s[i..j])
    ensures s[i..j] == Strip(s)
    decreases |s|
  {
    var r := s[i..j];
    if |s| == 0 {
    } else if i == j {
      // Nothing is left, so all of `s` is whitespace.
      assert AllSpace(s) by {
        forall k | 0 <= k < |s| ensures IsSpace(s[k]) {
          if k < i { assert s[..i][k] == s[k]; } else { assert s[j..][k - j] == s[k]; }
        }
      }
      EmptyWhenAllSpace(s);
    } else if IsSpace(s[0]) {
      var t := s[1..];
      assert i != 0 by { assert r[0] == s[i]; }
      assert r == t[i - 1..j - 1] by {
        forall k | 0 <= k < |r| ensures r[k] == t[i - 1..j - 1][k] {
          assert r[k] == s[i + k] == t[i - 1 + k];
        }
      }
      var front := t[..i - 1];
      assert AllSpace(front) by {
        forall k | 0 <= k < |front| ensures IsSpace(front[k]) {
          assert front[k] == s[..i][k + 1];
        }
      }
      assert t[j - 1..] == s[j..];
      StripUnique(t, i - 1, j - 1);
    } else if IsSpace(s[|s| - 1]) {
      var t := s[..|s| - 1];
      assert j != |s| by { assert r[|r| - 1] == s[j - 1]; }
      assert r == t[i..j];
      assert t[..i] == s[..i];
      var back := t[j..];
      assert AllSpace(back) by {
        forall k | 0 <= k < |back| ensures IsSpace(back[k]) {
          assert back[k] == s[j..][k];
        }
      }
      StripUnique(t, i, j);
    } else {
      assert i == 0;
      assert j == |s|;
    }
  }

  lemma {:induction false} EmptyWhenAllSpace(s: string)
    requires AllSpace(s)
    ensures Strip(s) == []
    decreases |s|
  {
    if |s| > 0 {
      EmptyWhenAllSpace(s[1..]);
    }
  }

  // ---------------------------------------------------------------------
  // Slicing, prefixes, substrings
  // ---------------------------------------------------------------------

  /** Python's `s[:n]` for a non-negative `n`. */
  function Take<T>(s: seq<T>, n: nat): (r: seq<T>)
    ensures |r| == Min(|s|, n)
    ensures r == s[..|r|]
  {
    if |s| <= n then s else s[..n]
  }

  /** Python's `s.startswith(p)`. */
  predicate StartsWith(s: string, p: string)
  {
    |p| <= |s| && s[..|p|] == p
  }

  ghost predicate OccursAt(pat: string, text: string, i: int)
  {
    0 <= i && i + |pat| <= |text| && text[i..i + |pat|] == pat
  }

  /** `pat` is a (contiguous) substring of `text`. */
  ghost predicate IsSubstring(pat: string, text: string)
  {
    exists i :: OccursAt(pat, text, i)
  }

  /** Python's `pat in text` on strings, by scanning the start positions left to right. */
  function Contains(text: string, pat: string): (b: bool)
    ensures b <==> IsSubstring(pat, text)
    decreases |text|
  {
    if |pat| > |text| then
      assert forall i :: !OccursAt(pat, text, i);
      false
    else if StartsWith(text, pat) then
      assert OccursAt(pat, text, 0);
      true
    else
      var rest := text[1..];
      var b := Contains(rest, pat);
      assert forall i :: OccursAt(pat, rest, i) ==> OccursAt(pat, text, i + 1) by {
        forall i | OccursAt(pat, rest, i) ensures OccursAt(pat, text, i + 1) {
          var a, b := text[i + 1..i + 1 + |pat|], rest[i..i + |pat|];
          assert forall k :: 0 <= k < |pat| ==> a[k] == b[k];
          assert a == b;
        }
      }
      assert forall i :: OccursAt(pat, text, i) ==> OccursAt(pat, rest, i - 1) by {
        forall i | OccursAt(pat, text, i) ensures OccursAt(pat, rest, i - 1) {
          assert i != 0;
          var a, b := text[i..i + |pat|], rest[i - 1..i - 1 + |pat|];
          assert forall k :: 0 <= k < |pat| ==> a[k] == b[k];
          assert a == b;
        }
      }
      b
  }

  // ---------------------------------------------------------------------
  // Joining
  // ---------------------------------------------------------------------

  function TotalLength(xs: seq<string>): nat
  {
    if |xs| == 0 then 0 else |xs[0]| + TotalLength(xs[1..])
  }

  /** Python's `sep.join(xs)`. */
  function Join(sep: string, xs: seq<string>): (r: string)
    ensures |xs| == 0 ==> r == ""
    ensures |xs| > 0 ==> |r| == TotalLength(xs) + |sep| * (|xs| - 1)
    ensures |xs| > 0 ==> StartsWith(r, xs[0])
  {
    if |xs| == 0 then ""
    else if |xs| == 1 then xs[0]
    else xs[0] + sep + Join(sep, xs[1..])
  }

  // ---------------------------------------------------------------------
  // Splitting, the inverse of joining
  // ---------------------------------------------------------------------

  /** The first position at which `pat` occurs in `text`, if any (Python's `text.find(pat)`). */
  function Find(text: string, pat: string): (r: Option<nat>)
    ensures r.Some? ==> OccursAt(pat, text, r.value)
    ensures r.Some? ==> forall i :: 0 <= i < r.value ==> !OccursAt(pat, text, i)
    ensures r.None? <==> !IsSubstring(pat, text)
    decreases |text|
  {
    if |pat| > |text| then
      assert forall i :: !OccursAt(pat, text, i);
      None
    else if StartsWith(text, pat) then
      assert OccursAt(pat, text, 0);
      Some(0)
    else
      var rest := text[1..];
      var r := Find(rest, pat);
      assert !OccursAt(pat, text, 0) by { assert text[..|pat|] == text[0..|pat|]; }
      assert forall i :: OccursAt(pat, rest, i) ==> OccursAt(pat, text, i + 1) by {
        forall i | OccursAt(pat, rest, i) ensures OccursAt(pat, text, i + 1) {
          var a, b := text[i + 1..i + 1 + |pat|], rest[i..i + |pat|];
          assert forall k :: 0 <= k < |pat| ==> a[k] == b[k];
          assert a == b;
        }
      }
      assert forall i :: 1 <= i && OccursAt(pat, text, i) ==> OccursAt(pat, rest, i - 1) by {
        forall i | 1 <= i && OccursAt(pat, text, i) ensures OccursAt(pat, rest, i - 1) {
          var a, b := text[i..i + |pat|], rest[i - 1..i - 1 + |pat|];
          assert forall k :: 0 <= k < |pat| ==> a[k] == b[k];
          assert a == b;
        }
      }
      if r.None? then None else Some(r.value + 1)
  }

  /** Python's `s.split(sep)` for a non-empty separator. */
  function Split(s: string, sep: string): (parts: seq<string>)
    requires |sep| > 0
    ensures |parts| >= 1
    decreases |s|
  {
    match Find(s, sep)
    case None => [s]
    case Some(i) => [s[..i]] + Split(s[i + |sep|..], sep)
  }

  /** No occurrence of `sep` starts inside `x`, even one running on into a
      separator placed right after it. */
  ghost predicate NoEarlySeparator(x: string, sep: string)
  {
    forall i :: 0 <= i < |x| ==> !OccursAt(sep, x + sep, i)
  }

  /** Splitting a join gives the parts back, when no part lets a separator start early. */
  lemma {:induction false} SplitJoin(sep: string, xs: seq<string>)
    requires |sep| > 0 && |xs| > 0
    requires forall k :: 0 <= k < |xs| ==> NoEarlySeparator(xs[k], sep)
    ensures Split(Join(sep, xs), sep) == xs
    decreases |xs|
  {
    var x := xs[0];
    assert NoEarlySeparator(x, sep);
    if |xs| == 1 {
      forall i | 0 <= i ensures !OccursAt(sep, x, i) {
        if i < |x| && i + |sep| <= |x| {
          assert !OccursAt(sep, x + sep, i);
          assert (x + sep)[i..i + |sep|] == x[i..i + |sep|];
        }
      }
    } else {
      var rest := Join(sep, xs[1..]);
      var s := x + sep + rest;
      assert Join(sep, xs) == s;
      assert OccursAt(sep, s, |x|) by { assert s[|x|..|x| + |sep|] == sep; }
      forall i | 0 <= i < |x| ensures !OccursAt(sep, s, i) {
        assert !OccursAt(sep, x + sep, i);
        assert s[i..i + |sep|] == (x + sep)[i..i + |sep|];
      }
      assert Find(s, sep) == Some(|x|);
      assert s[..|x|] == x;
      assert s[|x| + |sep|..] == rest;
      SplitJoin(sep, xs[1..]);
    }
  }

  /** For the separator ", " it is enough that the part does not contain it. */
  lemma CommaSpaceFree(x: string)
    requires !IsSubstring(", ", x)
    ensures NoEarlySeparator(x, ", ")
  {
    var t := x + ", ";
    forall i | 0 <= i < |x| ensures !OccursAt(", ", t, i) {
      if i + 2 <= |x| {
        assert t[i..i + 2] == x[i..i + 2];
        assert !OccursAt(", ", x, i);
      } else {
        assert t[i + 1] == ',';
      }
    }
  }

  // ---------------------------------------------------------------------
  // Slot labels: f'S{n:02d}'
  // ---------------------------------------------------------------------

  predicate IsDigit(c: char)
  {
    '0' <= c <= '9'
  }

  function DigitChar(d: nat): (c: char)
    requires d < 10
    ensures IsDigit(c) && c as int - '0' as int == d
  {
    ('0' as int + d) as char
  }

  /** The decimal numeral of `n`, without leading zeros. */
  function Decimal(n: nat): (s: string)
    ensures |s| >= 1
    ensures forall i :: 0 <= i < |s| ==> IsDigit(s[i])
    ensures n < 10 <==> |s| == 1
    ensures 10 <= n < 100 <==> |s| == 2
    ensures |s| > 1 ==> s[0] != '0'
  {
    if n < 10 then [DigitChar(n)] else Decimal(n / 10) + [DigitChar(n % 10)]
  }

  /** The value of a string of decimal digits (leading zeros allowed). */
  function DecimalValue(s: string): nat
    requires forall i :: 0 <= i < |s| ==> IsDigit(s[i])
  {
    if |s| == 0 then 0
    else
      assert IsDigit(s[|s| - 1]);
      DecimalValue(s[..|s| - 1]) * 10 + (s[|s| - 1] as int - '0' as int)
  }

  lemma {:induction false} DecimalRoundTrip(n: nat)
    ensures DecimalValue(Decimal(n)) == n
  {
    if n >= 10 {
      var s := Decimal(n);
      assert s[..|s| - 1] == Decimal(n / 10);
      DecimalRoundTrip(n / 10);
    }
  }

  lemma {:induction false} LeadingZeroIgnored(s: string)
    requires forall i :: 0 <= i < |s| ==> IsDigit(s[i])
    ensures DecimalValue("0" + s) == DecimalValue(s)
  {
    if |s| > 0 {
      var t := "0" + s;
      assert t[..|t| - 1] == "0" + s[..|s| - 1];
      LeadingZeroIgnored(s[..|s| - 1]);
    }
  }

  /** The slot label `S` followed by `n` zero-padded to at least two digits. */
  function IndexLabel(n: nat): (l: string)
    ensures |l| >= 3 && l[0] == 'S'
    ensures forall i :: 1 <= i < |l| ==> IsDigit(l[i])
    ensures n < 100 <==> |l| == 3
    ensures |l| > 3 ==> l[1] != '0'
  {
    "S" + (if n < 10 then "0" else "") + Decimal(n)
  }

  /** Reads the number back out of a slot label. */
  function LabelNumber(l: string): nat
    requires |l| >= 1
    requires forall i :: 1 <= i < |l| ==> IsDigit(l[i])
  {
    DecimalValue(l[1..])
  }

  /** The label encodes its number: reading it back yields `n`. */
  lemma LabelRoundTrip(n: nat)
    ensures LabelNumber(IndexLabel(n)) == n
  {
    var l := IndexLabel(n);
    DecimalRoundTrip(n);
    if n < 10 {
      assert l[1..] == "0" + Decimal(n);
      LeadingZeroIgnored(Decimal(n));
    } else {
      assert l[1..] == Decimal(n);
    }
  }

  /** Distinct numbers get distinct labels. */
  lemma LabelInjective(m: nat, n: nat)
    ensures IndexLabel(m) == IndexLabel(n) <==> m == n
  {
    if IndexLabel(m) == IndexLabel(n) {
      LabelRoundTrip(m);
      LabelRoundTrip(n);
    }
  }
}
